=== FILE: README.md ===
# RavelCoin block mining and chain validation, in Dafny

This project models the core of RavelCoin's `main.js`, a minimal
proof-of-work ledger. The model covers:

- `Block`: the digest `calcHash` over index, previous hash, timestamp,
  serialised data and nonce, in that order, and the proof-of-work search
  `mineBlock`, which increments the nonce until the hash starts with
  `diff` zero characters;
- `Blockchain`: the fixed genesis block, `getLatestBlock`, `addBlock` (link
  to the tip, mine, append) and the integrity scan `isChainValid`.

SHA-256 and `JSON.stringify` are opaque. They are passed in as an
`Externals` value holding two functions. Lemmas that need them to be
injective say so in a `requires`.

Modules:

- `Primitives` (`primitives.dfy`): JSON-shaped payloads, the two opaque
  functions, and JavaScript's decimal rendering of integers.
- `Blocks` (`blocks.dfy`): the block, its digest, the difficulty test and
  mining.
- `Chains` (`chains.dfy`): the chain, the validity predicate, the scan, and
  `addBlock` both as written and with the hash recomputation restored.
- `Tampering` (`tampering.dfy`): what the scan catches after a committed
  block is rewritten.
- `AsWritten` (`as_written.dfy`): the constructor exactly as written, which
  stores the method instead of its result.

The JavaScript mining loop has no bound. `decreases *` is not used. Instead,
`Blocks.MineBlock` requires `MiningTerminates`: either the stored hash already
meets the difficulty, or some larger nonce gives a digest that does. With
unbounded integer nonces this is the condition under which the loop
returns; JavaScript's limit on exact integers is listed under "Left out". A
ghost witness nonce bounds the loop.

The chain is a subset type with at least one block. The constructor always
installs the genesis block and nothing removes blocks, so `getLatestBlock` is
never called on an empty chain.

A block's stored hash is meant to equal a fresh recomputation over its
fields. `addBlock` does not recompute the hash after relinking, so this can
fail (see Findings). That path is reachable only once the constructor is fixed
as described under Findings; as written, the loop test throws first.

The commented-out tampering script (main.js:112-113) assigns `calcHash()` to
`data`, not to `hash`. That is a plain data change, which
`Tampering.DataTamperDetected` covers.

## Model

| member | source | states |
|---|---|---|
| Primitives.NatToDecimal | main.js:18 | a number is rendered as a non-empty string of decimal digits, one digit exactly when it is below 10, starting with '0' only for 0 itself (no leading zeros) |
| Primitives.IntToDecimal | main.js:18 | the index is rendered non-empty, with a leading minus sign exactly when it is negative; the digits (after the sign, if any) read back as the index's magnitude and have no leading zeros ("0" alone for 0) |
| Primitives.DecimalRoundTrip | main.js:18 | reading the rendered digits back gives the number again |
| Primitives.NatToDecimalInjective | main.js:18 | distinct nonces render to distinct text |
| Blocks.Preimage | main.js:18 | the digest input is the concatenation, in this order, of the index's decimal text, prevHash, timestamp, the serialised data and the nonce's decimal text |
| Blocks.CalcHash | main.js:16-19 | `calcHash` is the digest of that preimage; it reads the fields and changes nothing |
| Blocks.CalcHashDeterministic | main.js:16-19 | the digest depends only on index, prevHash, timestamp, data and nonce: blocks agreeing on these get the same digest whatever their stored hash |
| Blocks.CalcHashSeesData | main.js:18 | with an injective digest and serialiser, changing only the data changes the digest |
| Blocks.MiningTriesDistinctDigests | main.js:18-33 | with an injective digest, any two different nonces give the block different digests, so each nonce the loop tries yields a new hash |
| Blocks.CalcHashSeesPrevHash | main.js:18 | with an injective digest, changing only the previous hash changes the digest |
| Blocks.NewBlock | main.js:5-13 | a new block keeps its index, timestamp, data and prevHash (default ""), starts at nonce 0, and its hash is the digest of its own fields (the intended constructor) |
| Blocks.Meets | main.js:26 | the loop's exit test: the hash's first `diff` characters, clamped to its length, equal `diff` zeros |
| Blocks.Zeros | main.js:26 | `Array(n+1).join("0")` is n characters, all '0' |
| Blocks.MeetsIffLeadingZeros | main.js:26 | the loop's exit test holds exactly when the hash is at least `diff` long and its first `diff` characters are '0' |
| Blocks.ZeroDifficultyAlwaysMet | main.js:26 | at difficulty 0 every hash passes, so the loop body never runs |
| Blocks.MineBlock | main.js:23-37 | on return the hash starts with `diff` zeros; only nonce and hash change; the nonce never decreases; if the stored hash already met the difficulty nothing changes; otherwise the nonce grew and the hash is the digest at that nonce; no smaller nonce tried on the way meets the difficulty |
| Chains.CreateGenesisBlock | main.js:48-51 | genesis has index 0, prevHash "0", nonce 0, timestamp "01/01/2018", data "Genesis Block", and a self-consistent hash |
| Chains.NewBlockchain | main.js:42-46 | a new chain holds only the genesis block, has difficulty 5, and is valid |
| Chains.LatestBlock | main.js:53-56 | the tip is a block of the chain and the chain is its prefix followed by the tip |
| Chains.GenesisOnlyValid | main.js:76-93 | a chain holding one block is valid whatever that block holds, because the scan starts at index 1 |
| Chains.GenesisContentUnchecked | main.js:76-93 | rewriting the genesis block's content while keeping its hash keeps a valid chain valid |
| Chains.AppendLinkedKeepsValid | main.js:76-93 | appending a block gives a valid chain exactly when the chain was valid and the block is self-consistent and points at the tip; the difficulty plays no part |
| Chains.IsChainValid | main.js:76-93 | returns true exactly when every block after the first has a hash equal to its own digest and a prevHash equal to its predecessor's hash |
| Chains.AddBlock | main.js:59-73 | appends exactly one block and leaves the earlier ones and the difficulty unchanged; the new tip points at the old tip's hash, keeps the given index, timestamp and data, and meets the difficulty; the nonce never decreases; if the given hash already met the difficulty the block is appended unmined with its stale hash, otherwise it was mined (nonce grew) and is self-consistent; on a valid chain the result is valid exactly when the new tip is self-consistent, so a valid chain stays valid whenever the given hash missed the difficulty; no nonce strictly between the given one and the stored one meets the difficulty, so the appended block is the first the search finds |
| Chains.StaleRelinkInvalid | main.js:62-68 | with an injective digest, appending a block that was self-consistent under a different prevHash, relinked without recomputation, gives an invalid chain |
| Chains.StaleRelinkExample | main.js:45-68 | at the constructor's difficulty 5, with the identity as digest and a serialiser that always returns "null", a block with index 0 and timestamp "0000" already meets the difficulty, so it is appended unmined and leaves the chain invalid; nothing is shown for SHA-256 itself |
| Chains.AddBlockRecomputed | main.js:59-73 | with the recomputation of line 65 restored, the same append keeps a valid chain valid, the new tip is always self-consistent and meets the difficulty, its nonce never decreases, and no nonce strictly between the given one and the stored one meets the difficulty, so it is the first the search finds |
| Tampering.HashChangeBreaksNextLink | main.js:88-89 | replacing a committed block that has a successor with any block of a different hash makes the chain invalid |
| Tampering.PrevHashTamperDetected | main.js:88-89 | rewriting a committed block's prevHash makes the chain invalid |
| Tampering.DataTamperDetected | main.js:84-85 | with an injective digest and serialiser, rewriting a committed block's data without recomputing its hash makes the chain invalid |
| Tampering.RecomputedTamperDetected | main.js:84-89 | rewriting a committed block's data and recomputing its hash gives a self-consistent block, but if it has a successor the chain is still invalid |
| Tampering.TipRewriteUndetected | main.js:78-93 | rewriting the tip's data and recomputing its hash keeps a valid chain valid: the scan has no successor to compare it with |
| AsWritten.NewBlockAsWritten | main.js:5-13 | the constructor as written: the given fields, prevHash as a string (default ""), nonce 0, and the `calcHash` method itself in `hash` |
| AsWritten.GenesisAsWritten | main.js:48-51 | the genesis block built by the constructor as written, so its hash is the method value |
| AsWritten.RelinkAsWritten | main.js:62 | `newBlock.prevHash = this.getLatestBlock().hash`: the block takes the tip's hash value, whatever it is, and nothing else changes |
| AsWritten.MiningTest | main.js:26 | the loop test throws exactly when the hash field holds the method, and reports that the loop stops exactly when the hash is a string meeting the difficulty |
| AsWritten.MiningFreshBlockThrows | main.js:11-26 | mining a block built by the constructor as written throws a TypeError, for every block and every difficulty |
| AsWritten.DemoFirstAddBlockThrows | main.js:96-99 | the program's first `addBlock` relinks the block to the genesis block's method value and then throws in the loop test |
| AsWritten.Intended | main.js:11 | the intended block keeps every field of the written one and holds the digest in place of the method |
| AsWritten.CorrectedConstructorAgrees | main.js:5-13 | the corrected constructor is the written one with the method replaced by its result, and its loop test does not throw |

## Left out

- SHA-256 (`crypto-js`, main.js:1) and `JSON.stringify`: opaque functions passed as parameters; only injectivity is assumed, and only by the lemmas that state it.
- `console.log` on mining completion (main.js:36): output only.
- Blocks.MineBlock: nonces are unbounded integers; JavaScript's `nonce++` stops increasing at 2^53, so a loop whose only satisfying nonce lies beyond that never returns in JavaScript, while `MiningTerminates` holds.
- Blocks.MineBlock: termination is a precondition (`MiningTerminates`) and says nothing about cost; for a real digest nothing provable can be said about when a satisfying nonce exists.
- Difficulty out of range: `diff` is an unbounded natural number. In JavaScript, -1 behaves like 0, anything lower makes `Array(diff+1)` throw a RangeError, and so does `diff >= 2^32 - 1`, where `diff+1` exceeds the largest array length. The program fixes `diff` at 5.
- Number rendering: indices and nonces are integers. JavaScript's rendering of fractional numbers and of numbers written in exponent form is not modelled. Timestamps are strings, as everywhere in the program.
- Tampering.RecomputedTamperDetected: recomputes the hash at the same nonce. A full remine at a different nonce is covered only through Tampering.HashChangeBreaksNextLink, when the new hash differs. With an opaque serialiser, the serialised data followed by the nonce's digits could read the same for two different (data, nonce) pairs.
- The proof-of-work threshold is not rechecked by validation, and the model does not add such a check. Chains.AppendLinkedKeepsValid states the gap.
- The demo driver (main.js:96-114) is used only as the source of properties. The second demo block reuses index 1; nothing in the core depends on indices being distinct.
- A transaction/balance ledger with mining rewards does not appear in main.js and is not part of this model.
- Chains.AddBlock: blocks are treated as values. `addBlock` mutates its argument in place (main.js:62, 31-33) and pushes that same object (main.js:72), so in JavaScript a caller who later changes its block object changes the committed block, and adding one object twice relinks and remines the earlier entry too. This aliasing is not modelled.
- Concurrency: the program is single-threaded; the model is pure.

## Findings

| source | as written | input that shows it | evidently intended | confidence | as-written member | corrected member |
|---|---|---|---|---|---|---|
| main.js:11 | `this.hash = this.calcHash` stores the method, so `this.hash.substring` in the mining loop (main.js:26) throws a TypeError | any `new Block(...)` passed to `addBlock`, starting with the call at main.js:99 | assign `this.hash = this.calcHash()` after `this.nonce = 0` (swap lines 11 and 12); called before line 12 the digest would read an undefined nonce | high; not executed | AsWritten.MiningFreshBlockThrows | Blocks.NewBlock |
| main.js:62-68 | the hash is not recomputed after `prevHash` is changed (line 65 is commented out), so a block whose old hash already meets the difficulty is appended unmined with a stale hash and the chain becomes invalid | once the constructor is fixed as in the row above (as written, the loop test throws first): at difficulty 0, any new block whose default prevHash "" differs from the tip's hash; at difficulty 5, with the identity as digest, a block with index 0 and timestamp "0000" | recompute the hash after relinking, before mining | medium; not executed | Chains.StaleRelinkExample | Chains.AddBlockRecomputed |

=== FILE: as_written.dfy ===
/**
 The block constructor exactly as main.js:11 writes it. `this.hash =
 this.calcHash` stores the method itself, not its result, so the first test
 of the mining loop calls `substring` on a function value and throws a
 TypeError. The rest of the model uses `Blocks.NewBlock`, which stores the
 digest as evidently intended; this module keeps the written behaviour and
 shows where the two part.
 */
module AsWritten {
  import opened Primitives
  import opened Blocks

  /** The JavaScript values the `hash` and `prevHash` fields can hold here:
      a string, or the `calcHash` method itself. */
  datatype JsValue = Str(s: string) | CalcHashMethod

  datatype JsError = TypeError

  /** The outcome of evaluating JavaScript that may throw. */
  datatype Outcome<T> = Ok(value: T) | Throws(error: JsError)

  /** A block whose hash fields hold JavaScript values. */
  datatype WrittenBlock = WrittenBlock(
    index: int,
    timestamp: string,
    data: Json,
    prevHash: JsValue,
    hash: JsValue,
    nonce: nat)

  /** The constructor as written. */
  function NewBlockAsWritten(index: int, timestamp: string, data: Json, prevHash: string := ""): WrittenBlock
  {
    WrittenBlock(index, timestamp, data, Str(prevHash), CalcHashMethod, 0)
  }

  /** `createGenesisBlock` over the constructor as written. */
  function GenesisAsWritten(): WrittenBlock
  {
    NewBlockAsWritten(0, "01/01/2018", JString("Genesis Block"), "0")
  }

  /** The first line of `addBlock`: the new block takes the tip's hash value. */
  function RelinkAsWritten(tip: WrittenBlock, b: WrittenBlock): WrittenBlock
  {
    b.(prevHash := tip.hash)
  }

  /** One evaluation of the mining loop's test: true when the loop body runs.
      A function value has no `substring`, so the test throws on it. */
  function MiningTest(b: WrittenBlock, diff: nat): (r: Outcome<bool>)
    ensures r.Throws? <==> b.hash == CalcHashMethod
    ensures r == Ok(false) <==> b.hash.Str? && Meets(b.hash.s, diff)
  {
    match b.hash
    case CalcHashMethod => Throws(TypeError)
    case Str(h) => Ok(!Meets(h, diff))
  }

  /** Mining a block built by the constructor as written throws, whatever the
      block holds and whatever the difficulty. */
  lemma MiningFreshBlockThrows(index: int, timestamp: string, data: Json, prevHash: string, diff: nat)
    ensures MiningTest(NewBlockAsWritten(index, timestamp, data, prevHash), diff) == Throws(TypeError)
  {
  }

  /** The program's first `addBlock` (main.js:99) throws before any block is
      appended: the block takes the genesis block's method value as its
      previous hash, and its own hash is a method value too. */
  lemma DemoFirstAddBlockThrows()
    ensures var b := RelinkAsWritten(GenesisAsWritten(), NewBlockAsWritten(1, "10/07/2018", JObject([("amount", JNumber(4))])));
            b.prevHash == CalcHashMethod && MiningTest(b, 5) == Throws(TypeError)
  {
  }

  /** The intended block, with the method call's result in place of the method. */
  function Intended(ext: Externals, w: WrittenBlock): (b: Block)
    requires w.prevHash.Str?
    ensures b.index == w.index && b.timestamp == w.timestamp && b.data == w.data
    ensures b.prevHash == w.prevHash.s && b.nonce == w.nonce
    ensures HashConsistent(ext, b)
  {
    var b := Block(w.index, w.timestamp, w.data, w.prevHash.s, "", w.nonce);
    b.(hash := CalcHash(ext, b))
  }

  /** The corrected constructor differs from the written one only in the hash:
      it holds the digest the stored method would return, so mining can start. */
  lemma CorrectedConstructorAgrees(ext: Externals, index: int, timestamp: string, data: Json, prevHash: string, diff: nat)
    ensures var w := NewBlockAsWritten(index, timestamp, data, prevHash);
            var b := NewBlock(ext, index, timestamp, data, prevHash);
            b == Intended(ext, w) && MiningTest(w.(hash := Str(b.hash)), diff).Ok?
  {
  }
}

=== FILE: blocks.dfy ===
/**
 A single block of the ledger (`class Block` of main.js): its digest
 (`calcHash`) and the proof-of-work search (`mineBlock`).

 The JavaScript constructor stores the method `calcHash` itself in `hash`
 instead of calling it; the model follows the evident intent and stores the
 digest of the freshly built block. Module `AsWritten` records what the code
 does as written.
 */
module Blocks {
  import opened Primitives

  datatype Block = Block(
    index: int,
    timestamp: string,
    data: Json,
    prevHash: string,
    hash: string,
    nonce: nat)

  /** The text the digest is taken over: index, previous hash, timestamp,
      serialised data and nonce, concatenated in that order. The stored
      `hash` takes no part in it. */
  function Preimage(ext: Externals, b: Block): string
  {
    IntToDecimal(b.index) + b.prevHash + b.timestamp + ext.stringify(b.data) + NatToDecimal(b.nonce)
  }

  /** `calcHash`: the digest of the block's current fields. */
  function CalcHash(ext: Externals, b: Block): string
  {
    ext.sha256(Preimage(ext, b))
  }

  /** The stored hash is a fresh recomputation over the current fields. */
  predicate HashConsistent(ext: Externals, b: Block)
  {
    b.hash == CalcHash(ext, b)
  }

  /** The digest `b` would have with nonce `n` and its other fields unchanged. */
  function HashAt(ext: Externals, b: Block, n: nat): string
  {
    CalcHash(ext, b.(nonce := n))
  }

  /** `calcHash` reads exactly the five content fields: blocks that agree on
      them get the same digest, whatever their stored hashes. */
  lemma CalcHashDeterministic(ext: Externals, b1: Block, b2: Block)
    requires b1.index == b2.index && b1.prevHash == b2.prevHash && b1.timestamp == b2.timestamp
    requires b1.data == b2.data && b1.nonce == b2.nonce
    ensures CalcHash(ext, b1) == CalcHash(ext, b2)
    ensures HashConsistent(ext, b1) && b2.hash == b1.hash ==> HashConsistent(ext, b2)
  {
  }

  /** With an injective digest and serialiser, changing only the data changes the digest. */
  lemma CalcHashSeesData(ext: Externals, b: Block, d: Json)
    requires Injective(ext.sha256) && Injective(ext.stringify)
    requires d != b.data
    ensures CalcHash(ext, b.(data := d)) != CalcHash(ext, b)
  {
    var b' := b.(data := d);
    if CalcHash(ext, b') == CalcHash(ext, b) {
      assert Preimage(ext, b') == Preimage(ext, b);
      CancelAround(IntToDecimal(b.index) + b.prevHash + b.timestamp, ext.stringify(d),
                   ext.stringify(b.data), NatToDecimal(b.nonce));
      assert false;
    }
  }

  /** With an injective digest, changing only the previous hash changes the digest. */
  lemma CalcHashSeesPrevHash(ext: Externals, b: Block, h: string)
    requires Injective(ext.sha256)
    requires h != b.prevHash
    ensures CalcHash(ext, b.(prevHash := h)) != CalcHash(ext, b)
  {
    var b' := b.(prevHash := h);
    if CalcHash(ext, b') == CalcHash(ext, b) {
      var rest := b.timestamp + ext.stringify(b.data) + NatToDecimal(b.nonce);
      assert Preimage(ext, b') == IntToDecimal(b.index) + h + rest;
      assert Preimage(ext, b) == IntToDecimal(b.index) + b.prevHash + rest;
      CancelAround(IntToDecimal(b.index), h, b.prevHash, rest);
      assert false;
    }
  }

  /** With an injective digest, every nonce the mining loop tries gives a
      different digest: the nonce's digits end the preimage and no two
      nonces share their digits. */
  lemma MiningTriesDistinctDigests(ext: Externals, b: Block, m: nat, n: nat)
    requires Injective(ext.sha256)
    requires m != n
    ensures HashAt(ext, b, m) != HashAt(ext, b, n)
  {
    if HashAt(ext, b, m) == HashAt(ext, b, n) {
      var prefix := IntToDecimal(b.index) + b.prevHash + b.timestamp + ext.stringify(b.data);
      assert Preimage(ext, b.(nonce := m)) == prefix + NatToDecimal(m);
      assert Preimage(ext, b.(nonce := n)) == prefix + NatToDecimal(n);
      CancelAround(prefix, NatToDecimal(m), NatToDecimal(n), "");
      NatToDecimalInjective(m, n);
      assert false;
    }
  }

  /** The block constructor, with the evident intent of main.js: the hash is
      the digest of the new block with nonce 0, i.e. `this.hash =
      this.calcHash()` placed after `this.nonce = 0` (lines 11 and 12
      swapped; called before line 12 the digest would read an undefined
      nonce). `prevHash` defaults to "". */
  function NewBlock(ext: Externals, index: int, timestamp: string, data: Json, prevHash: string := ""): (b: Block)
    ensures b.index == index && b.timestamp == timestamp && b.data == data && b.prevHash == prevHash
    ensures b.nonce == 0
    ensures HashConsistent(ext, b)
  {
    var b := Block(index, timestamp, data, prevHash, "", 0);
    b.(hash := CalcHash(ext, b))
  }

  /** `Array(n + 1).join("0")`: n zero characters. */
  function Zeros(n: nat): (z: string)
    ensures |z| == n
    ensures forall i :: 0 <= i < n ==> z[i] == '0'
  {
    if n == 0 then "" else Zeros(n - 1) + "0"
  }

  function Min(a: int, b: int): int
  {
    if a <= b then a else b
  }

  /** The exit test of the mining loop, `hash.substring(0, diff) === Zeros(diff)`;
      `substring` clamps its end to the length of the string. */
  predicate Meets(h: string, diff: nat)
  {
    h[..Min(diff, |h|)] == Zeros(diff)
  }

  /** A hash meets the difficulty exactly when it is at least `diff` long and
      its first `diff` characters are all '0'. */
  lemma MeetsIffLeadingZeros(h: string, diff: nat)
    ensures Meets(h, diff) <==> diff <= |h| && forall i :: 0 <= i < diff ==> h[i] == '0'
  {
  }

  /** Difficulty 0 is met by every hash, so the mining loop never runs. */
  lemma ZeroDifficultyAlwaysMet(h: string)
    ensures Meets(h, 0)
  {
  }

  /** The mining loop stops: either the stored hash already meets the
      difficulty, or some larger nonce gives a digest that does. Without this
      the JavaScript loop runs forever. */
  ghost predicate MiningTerminates(ext: Externals, b: Block, diff: nat)
  {
    Meets(b.hash, diff) || exists n: nat :: n > b.nonce && Meets(HashAt(ext, b, n), diff)
  }

  /** `mineBlock(diff)`: while the stored hash does not meet the difficulty,
      increment the nonce and recompute the hash. The result is the first
      block in that search whose hash meets the difficulty. */
  method MineBlock(ext: Externals, b: Block, diff: nat) returns (r: Block)
    requires MiningTerminates(ext, b, diff)
    ensures r == b.(nonce := r.nonce, hash := r.hash)
    ensures Meets(r.hash, diff)
    ensures diff <= |r.hash| && forall i :: 0 <= i < diff ==> r.hash[i] == '0'
    ensures b.nonce <= r.nonce
    ensures Meets(b.hash, diff) ==> r == b
    ensures !Meets(b.hash, diff) ==> r.nonce > b.nonce && HashConsistent(ext, r)
    ensures r.nonce > b.nonce ==> HashConsistent(ext, r)
    ensures forall k: nat :: b.nonce < k < r.nonce ==> !Meets(HashAt(ext, b, k), diff)
  {
    ghost var target: nat;
    if Meets(b.hash, diff) {
      target := b.nonce;
    } else {
      target :| target > b.nonce && Meets(HashAt(ext, b, target), diff);
    }
    r := b;
    while !Meets(r.hash, diff)
      invariant r == b.(nonce := r.nonce, hash := r.hash)
      invariant b.nonce <= r.nonce <= target
      invariant r.nonce == b.nonce ==> r == b
      invariant r.nonce > b.nonce ==> r.hash == HashAt(ext, b, r.nonce)
      invariant target == b.nonce ==> Meets(b.hash, diff)
      invariant target > b.nonce ==> Meets(HashAt(ext, b, target), diff)
      invariant forall k: nat :: b.nonce < k < r.nonce ==> !Meets(HashAt(ext, b, k), diff)
      decreases target - r.nonce
    {
      r := r.(nonce := r.nonce + 1);
      r := r.(hash := CalcHash(ext, r));
    }
    MeetsIffLeadingZeros(r.hash, diff);
  }
}

=== FILE: chains.dfy ===
/**
 The chain of blocks (`class Blockchain` of main.js): the genesis block,
 the tip accessor, appending a block (`addBlock`) and the integrity scan
 (`isChainValid`).
 */
module Chains {
  import opened Primitives
  import opened Blocks

  datatype Blockchain = Blockchain(chain: seq<Block>, diff: nat)

  /** Every chain the program can reach holds at least the genesis block:
      the constructor installs it and nothing removes blocks. */
  type Chain = c: Blockchain | |c.chain| > 0
    witness Blockchain([Block(0, "", JNull, "", "", 0)], 0)

  /** The difficulty the constructor sets. */
  const Difficulty: nat := 5

  /** `createGenesisBlock`: index 0, a fixed date and payload, and "0" as the
      previous hash. */
  function CreateGenesisBlock(ext: Externals): (g: Block)
    ensures g.index == 0 && g.prevHash == "0" && g.nonce == 0
    ensures g.timestamp == "01/01/2018" && g.data == JString("Genesis Block")
    ensures HashConsistent(ext, g)
  {
    NewBlock(ext, 0, "01/01/2018", JString("Genesis Block"), "0")
  }

  /** The integrity condition `isChainValid` checks: every block after the
      first carries its own digest and the hash of its predecessor. The
      genesis block and the difficulty are never checked. */
  ghost predicate Valid(ext: Externals, chain: seq<Block>)
  {
    forall i :: 1 <= i < |chain| ==> HashConsistent(ext, chain[i]) && chain[i].prevHash == chain[i - 1].hash
  }

  /** The `Blockchain` constructor: the genesis block alone, difficulty 5. */
  function NewBlockchain(ext: Externals): (c: Chain)
    ensures c.chain == [CreateGenesisBlock(ext)]
    ensures c.diff == Difficulty
    ensures Valid(ext, c.chain)
  {
    Blockchain([CreateGenesisBlock(ext)], Difficulty)
  }

  /** `getLatestBlock`: the tip, the last block of the chain. */
  function LatestBlock(c: Chain): (tip: Block)
    ensures tip in c.chain
    ensures c.chain == c.chain[..|c.chain| - 1] + [tip]
  {
    c.chain[|c.chain| - 1]
  }

  /** A chain of the genesis block alone is valid, whatever its fields hold. */
  lemma GenesisOnlyValid(ext: Externals, g: Block)
    ensures Valid(ext, [g])
  {
  }

  /** The genesis block's own fields are never rechecked: rewriting its
      content, while keeping its stored hash, keeps a valid chain valid. */
  lemma GenesisContentUnchecked(ext: Externals, chain: seq<Block>, g: Block)
    requires |chain| > 0 && Valid(ext, chain)
    requires g.hash == chain[0].hash
    ensures Valid(ext, chain[0 := g])
  {
  }

  /** Appending a block to a chain gives a valid chain exactly when the chain
      was valid and the block carries its own digest and the tip's hash;
      whether its hash meets the difficulty plays no part. */
  lemma AppendLinkedKeepsValid(ext: Externals, chain: seq<Block>, b: Block)
    requires |chain| > 0
    ensures Valid(ext, chain + [b]) <==>
      Valid(ext, chain) && HashConsistent(ext, b) && b.prevHash == chain[|chain| - 1].hash
  {
    if Valid(ext, chain) && HashConsistent(ext, b) && b.prevHash == chain[|chain| - 1].hash {
      AppendValid(ext, chain, b);
    }
    if Valid(ext, chain + [b]) {
      AppendedParts(ext, chain, b);
    }
  }

  /** The forward direction: a linked, self-consistent block extends a valid chain. */
  lemma AppendValid(ext: Externals, chain: seq<Block>, b: Block)
    requires |chain| > 0 && Valid(ext, chain)
    requires HashConsistent(ext, b) && b.prevHash == chain[|chain| - 1].hash
    ensures Valid(ext, chain + [b])
  {
    var chain' := chain + [b];
    forall i | 1 <= i < |chain'|
      ensures HashConsistent(ext, chain'[i]) && chain'[i].prevHash == chain'[i - 1].hash
    {
      if i < |chain| {
        assert chain'[i] == chain[i] && chain'[i - 1] == chain[i - 1];
      } else {
        assert chain'[i] == b && chain'[i - 1] == chain[|chain| - 1];
      }
    }
  }

  /** The backward direction: a valid extended chain has a valid prefix and a linked, self-consistent tip. */
  lemma AppendedParts(ext: Externals, chain: seq<Block>, b: Block)
    requires |chain| > 0 && Valid(ext, chain + [b])
    ensures Valid(ext, chain) && HashConsistent(ext, b) && b.prevHash == chain[|chain| - 1].hash
  {
    var chain' := chain + [b];
    assert chain'[|chain|] == b && chain'[|chain| - 1] == chain[|chain| - 1];
    forall i | 1 <= i < |chain|
      ensures HashConsistent(ext, chain[i]) && chain[i].prevHash == chain[i - 1].hash
    {
      assert chain'[i] == chain[i] && chain'[i - 1] == chain[i - 1];
    }
  }

  /** `isChainValid`: a scan from index 1 that returns false at the first
      block whose stored hash is stale or whose link to its predecessor is
      broken, and true when the scan completes. */
  method IsChainValid(ext: Externals, c: Chain) returns (ok: bool)
    ensures ok <==> Valid(ext, c.chain)
  {
    var chain := c.chain;
    var i := 1;
    while i < |chain|
      invariant 1 <= i <= |chain|
      invariant Valid(ext, chain[..i])
    {
      var current := chain[i];
      var previous := chain[i - 1];
      if current.hash != CalcHash(ext, current) {
        assert !HashConsistent(ext, chain[i]);
        return false;
      }
      if current.prevHash != previous.hash {
        assert chain[i].prevHash != chain[i - 1].hash;
        return false;
      }
      ValidExtend(ext, chain, i);
      i := i + 1;
    }
    assert chain[..i] == chain;
    return true;
  }

  /** A valid prefix extends by one block that passes both checks. */
  lemma ValidExtend(ext: Externals, chain: seq<Block>, i: nat)
    requires 1 <= i < |chain|
    requires Valid(ext, chain[..i])
    requires HashConsistent(ext, chain[i]) && chain[i].prevHash == chain[i - 1].hash
    ensures Valid(ext, chain[..i + 1])
  {
    assert chain[..i + 1] == chain[..i] + [chain[i]];
    AppendLinkedKeepsValid(ext, chain[..i], chain[i]);
  }

  /** `addBlock` as written: point the new block at the tip, mine it at the
      chain's difficulty, and append it. The hash is not recomputed after the
      relink, so when the stored hash already meets the difficulty the loop
      never runs and the appended block keeps its stale hash. */
  method AddBlock(ext: Externals, c: Chain, b: Block) returns (c': Chain)
    requires MiningTerminates(ext, b.(prevHash := LatestBlock(c).hash), c.diff)
    ensures c'.diff == c.diff
    ensures |c'.chain| == |c.chain| + 1
    ensures c'.chain[..|c.chain|] == c.chain
    ensures LatestBlock(c').prevHash == LatestBlock(c).hash
    ensures LatestBlock(c') == b.(prevHash := LatestBlock(c).hash, nonce := LatestBlock(c').nonce, hash := LatestBlock(c').hash)
    ensures Meets(LatestBlock(c').hash, c.diff)
    ensures Meets(b.hash, c.diff) ==> LatestBlock(c') == b.(prevHash := LatestBlock(c).hash)
    ensures b.nonce <= LatestBlock(c').nonce
    ensures !Meets(b.hash, c.diff) ==> LatestBlock(c').nonce > b.nonce
    ensures LatestBlock(c').nonce > b.nonce ==> HashConsistent(ext, LatestBlock(c'))
    ensures Valid(ext, c.chain) ==> (Valid(ext, c'.chain) <==> HashConsistent(ext, LatestBlock(c')))
    ensures Valid(ext, c.chain) && !Meets(b.hash, c.diff) ==> Valid(ext, c'.chain)
    ensures forall k: nat :: b.nonce < k < LatestBlock(c').nonce ==>
      !Meets(HashAt(ext, b.(prevHash := LatestBlock(c).hash), k), c.diff)
  {
    var tip := LatestBlock(c);
    var linked := b.(prevHash := tip.hash);
    var mined := MineBlock(ext, linked, c.diff);
    c' := Blockchain(c.chain + [mined], c.diff);
    assert c'.chain[..|c.chain|] == c.chain;
    AppendLinkedKeepsValid(ext, c.chain, mined);
  }

  /** When the loop does not run, the block is appended with the hash it had
      before the relink. If that hash was the digest of the block under its
      old previous hash, and the old previous hash differs from the tip's
      hash, the resulting chain is invalid. */
  lemma StaleRelinkInvalid(ext: Externals, c: Chain, b: Block)
    requires Injective(ext.sha256)
    requires HashConsistent(ext, b)
    requires b.prevHash != LatestBlock(c).hash
    ensures !Valid(ext, c.chain + [b.(prevHash := LatestBlock(c).hash)])
  {
    var tip := LatestBlock(c);
    var linked := b.(prevHash := tip.hash);
    CalcHashSeesPrevHash(ext, b, tip.hash);
    var chain' := c.chain + [linked];
    assert chain'[|c.chain|] == linked;
  }

  /** A concrete stale append at the constructor's difficulty 5: with the
      identity as digest, a block with index 0 and timestamp "0000" already
      meets the difficulty before mining, so `AddBlock` appends it relinked
      but unmined, and the chain it yields is invalid. */
  lemma StaleRelinkExample()
    ensures var ext := Externals(s => s, j => "null");
            var b := NewBlock(ext, 0, "0000", JNull);
            var c := NewBlockchain(ext);
            Meets(b.hash, c.diff) && !Valid(ext, c.chain + [b.(prevHash := LatestBlock(c).hash)])
  {
    var ext := Externals(s => s, j => "null");
    var b := NewBlock(ext, 0, "0000", JNull);
    var c := NewBlockchain(ext);
    assert b.hash == "00000null0";
    MeetsIffLeadingZeros(b.hash, c.diff);
    assert LatestBlock(c).hash != "";
    StaleRelinkInvalid(ext, c, b);
  }

  /** The digests the search tries do not read the stored hash, so nonces
      skipped from a block are skipped from it under any stored hash. */
  lemma SkippedNoncesIgnoreHash(ext: Externals, b: Block, h: string, upto: nat, diff: nat)
    requires forall k: nat :: b.nonce < k < upto ==> !Meets(HashAt(ext, b.(hash := h), k), diff)
    ensures forall k: nat :: b.nonce < k < upto ==> !Meets(HashAt(ext, b, k), diff)
  {
    forall k: nat | b.nonce < k < upto
      ensures !Meets(HashAt(ext, b, k), diff)
    {
      assert !Meets(HashAt(ext, b.(hash := h), k), diff);
      CalcHashDeterministic(ext, b.(hash := h).(nonce := k), b.(nonce := k));
    }
  }

  /** `addBlock` with the recomputation of main.js:65 restored: after the
      relink the hash is recomputed, then the block is mined and appended. A
      valid chain stays valid. */
  method AddBlockRecomputed(ext: Externals, c: Chain, b: Block) returns (c': Chain)
    requires MiningTerminates(ext, var l := b.(prevHash := LatestBlock(c).hash); l.(hash := CalcHash(ext, l)), c.diff)
    ensures c'.diff == c.diff
    ensures |c'.chain| == |c.chain| + 1
    ensures c'.chain[..|c.chain|] == c.chain
    ensures LatestBlock(c').prevHash == LatestBlock(c).hash
    ensures LatestBlock(c') == b.(prevHash := LatestBlock(c).hash, nonce := LatestBlock(c').nonce, hash := LatestBlock(c').hash)
    ensures Meets(LatestBlock(c').hash, c.diff)
    ensures b.nonce <= LatestBlock(c').nonce
    ensures HashConsistent(ext, LatestBlock(c'))
    ensures Valid(ext, c.chain) ==> Valid(ext, c'.chain)
    ensures forall k: nat :: b.nonce < k < LatestBlock(c').nonce ==>
      !Meets(HashAt(ext, b.(prevHash := LatestBlock(c).hash), k), c.diff)
  {
    var tip := LatestBlock(c);
    var relinked := b.(prevHash := tip.hash);
    var linked := relinked.(hash := CalcHash(ext, relinked));
    var mined := MineBlock(ext, linked, c.diff);
    SkippedNoncesIgnoreHash(ext, relinked, linked.hash, mined.nonce, c.diff);
    c' := Blockchain(c.chain + [mined], c.diff);
    assert c'.chain[..|c.chain|] == c.chain;
    AppendLinkedKeepsValid(ext, c.chain, mined);
  }
}

=== FILE: primitives.dfy ===
/**
 The primitives the ledger is built from but does not define: the digest
 (SHA-256 rendered as a hex string) and the payload serialiser
 (`JSON.stringify`). Both are opaque, deterministic functions handed in as a
 value of `Externals`; nothing is assumed about them except, where a lemma
 says so, that they are injective. The module also models how JavaScript
 renders the integer fields of a block when they are concatenated into the
 digest input.
 */
module Primitives {

  /** Block payloads as the program passes them: JSON-shaped values. */
  datatype Json =
    | JNull
    | JBool(b: bool)
    | JNumber(n: int)
    | JString(s: string)
    | JArray(items: seq<Json>)
    | JObject(members: seq<(string, Json)>)

  /** The two external functions: the digest and the serialiser. */
  datatype Externals = Externals(sha256: string -> string, stringify: Json -> string)

  /** No two distinct inputs share an output. */
  ghost predicate Injective<A(!new), B>(f: A -> B)
  {
    forall x, y :: f(x) == f(y) ==> x == y
  }

  predicate IsDigit(c: char)
  {
    '0' <= c <= '9'
  }

  predicate AllDigits(s: string)
  {
    forall i :: 0 <= i < |s| ==> IsDigit(s[i])
  }

  function DigitChar(d: nat): (c: char)
    requires d < 10
    ensures IsDigit(c)
    ensures c as int - '0' as int == d
  {
    ('0' as int + d) as char
  }

  /** The decimal text JavaScript produces for a non-negative integer. */
  function NatToDecimal(n: nat): (r: string)
    ensures |r| > 0
    ensures AllDigits(r)
    ensures n < 10 <==> |r| == 1
    ensures r[0] == '0' <==> n == 0
  {
    if n < 10 then [DigitChar(n)] else NatToDecimal(n / 10) + [DigitChar(n % 10)]
  }

  /** The decimal text JavaScript produces for an integer: a minus sign, then the magnitude. */
  function IntToDecimal(i: int): (r: string)
    ensures |r| > 0
    ensures i < 0 <==> r[0] == '-'
    ensures i >= 0 ==> AllDigits(r) && DecimalValue(r) == i
    ensures i < 0 ==> AllDigits(r[1..]) && DecimalValue(r[1..]) == -i
    ensures i >= 0 ==> (r[0] == '0' ==> r == "0")
    ensures i < 0 ==> |r| > 1 && r[1] != '0'
  {
    if i < 0 then
      var digits := NatToDecimal(-i);
      DecimalRoundTrip(-i);
      assert ("-" + digits)[1..] == digits;
      "-" + digits
    else
      DecimalRoundTrip(i);
      NatToDecimal(i)
  }

  /** Reads a string of decimal digits back as a number. */
  function DecimalValue(s: string): nat
    requires AllDigits(s)
  {
    if |s| == 0 then 0
    else DecimalValue(s[..|s| - 1]) * 10 + (s[|s| - 1] as int - '0' as int)
  }

  /** The rendering of a number is unambiguous: its digits read back as that number. */
  lemma {:induction false} DecimalRoundTrip(n: nat)
    ensures DecimalValue(NatToDecimal(n)) == n
  {
    if n >= 10 {
      var r := NatToDecimal(n);
      assert r[..|r| - 1] == NatToDecimal(n / 10);
      DecimalRoundTrip(n / 10);
    }
  }

  /** Two distinct numbers never render to the same text. */
  lemma NatToDecimalInjective(m: nat, n: nat)
    requires NatToDecimal(m) == NatToDecimal(n)
    ensures m == n
  {
    DecimalRoundTrip(m);
    DecimalRoundTrip(n);
  }

  /** A common prefix and suffix can be cancelled from equal concatenations. */
  lemma CancelAround(a: string, x: string, y: string, c: string)
    requires a + x + c == a + y + c
    ensures x == y
  {
    assert |x| == |y|;
    assert x == (a + x + c)[|a|..|a| + |x|];
    assert y == (a + y + c)[|a|..|a| + |y|];
  }
}

=== FILE: tampering.dfy ===
/**
 Tamper detection: what `isChainValid` catches when a committed block is
 rewritten after it was appended. The digest and serialiser are assumed
 injective only where a lemma says so.
 */
module Tampering {
  import opened Primitives
  import opened Blocks
  import opened Chains

  /** Replacing a committed block with one whose stored hash differs breaks
      the link from its successor, whatever else the new block holds. */
  lemma HashChangeBreaksNextLink(ext: Externals, chain: seq<Block>, i: nat, b: Block)
    requires Valid(ext, chain)
    requires i + 1 < |chain|
    requires b.hash != chain[i].hash
    ensures !Valid(ext, chain[i := b])
  {
    var chain' := chain[i := b];
    assert chain'[i + 1] == chain[i + 1] && chain'[i] == b;
    assert chain'[i + 1].prevHash != chain'[i].hash;
  }

  /** Rewriting a committed block's previous hash, and nothing else, is caught. */
  lemma PrevHashTamperDetected(ext: Externals, chain: seq<Block>, i: nat, h: string)
    requires Valid(ext, chain)
    requires 1 <= i < |chain|
    requires h != chain[i].prevHash
    ensures !Valid(ext, chain[i := chain[i].(prevHash := h)])
  {
    var chain' := chain[i := chain[i].(prevHash := h)];
    assert chain'[i - 1] == chain[i - 1];
    assert chain'[i].prevHash != chain'[i - 1].hash;
  }

  /** Rewriting a committed block's data without recomputing its hash is
      caught: the stored hash no longer matches the fields. */
  lemma DataTamperDetected(ext: Externals, chain: seq<Block>, i: nat, d: Json)
    requires Injective(ext.sha256) && Injective(ext.stringify)
    requires Valid(ext, chain)
    requires 1 <= i < |chain|
    requires d != chain[i].data
    ensures !Valid(ext, chain[i := chain[i].(data := d)])
  {
    var t := chain[i].(data := d);
    CalcHashSeesData(ext, chain[i], d);
    assert !HashConsistent(ext, t);
    assert chain[i := t][i] == t;
  }

  /** Rewriting a committed block's data and recomputing its hash gives a
      block that is consistent on its own, but the successor still points at
      the old hash, so the chain is still caught. */
  lemma RecomputedTamperDetected(ext: Externals, chain: seq<Block>, i: nat, d: Json)
    requires Injective(ext.sha256) && Injective(ext.stringify)
    requires Valid(ext, chain)
    requires 1 <= i && i + 1 < |chain|
    requires d != chain[i].data
    ensures var t := chain[i].(data := d);
            HashConsistent(ext, t.(hash := CalcHash(ext, t)))
    ensures var t := chain[i].(data := d);
            !Valid(ext, chain[i := t.(hash := CalcHash(ext, t))])
  {
    var t := chain[i].(data := d);
    CalcHashSeesData(ext, chain[i], d);
    HashChangeBreaksNextLink(ext, chain, i, t.(hash := CalcHash(ext, t)));
  }

  /** At the tip there is no successor: rewriting the last block's data and
      recomputing its hash goes unnoticed. */
  lemma TipRewriteUndetected(ext: Externals, chain: seq<Block>, d: Json)
    requires Valid(ext, chain)
    requires |chain| >= 2
    ensures var i := |chain| - 1;
            var t := chain[i].(data := d);
            Valid(ext, chain[i := t.(hash := CalcHash(ext, t))])
  {
  }
}
